=== FILE: README.md ===
# Combat and progression rules of a turn-based RPG, in Dafny

This project models the rules of a small pygame dungeon RPG. A hero climbs floors and fights one enemy per floor. Each turn the hero picks Magic Attack, Strength Attack, Defend or Heal, and the enemy may strike back. A win brings an upgrade choice, coins, the next floor and the next floor's enemy. A loss leads to the game-over screen, where New Game starts over. Between fights the hero can spend coins in a shop. Every action also appends telemetry rows (skill use, damage, health).

The model is functional. Hero and enemy are immutable records, and every button handler is a pure function. Random draws are explicit inputs: the `random()` value behind a dodge, and each integer returned by an enemy `attack()`. So each function states what the game does for every possible draw. Telemetry is the sequence of events a step returns.

Modules, one per source file:

- `Common`: `Option`, `Min`, `Max`, and `TruncDiv` (Python's truncating `int()` of a quotient).
- `Player` (models/player.py): the `Hero` record, its attack, defend and heal formulas, and dodge.
- `Enemies` (models/enemy.py): enemy and boss stats derived from the level, and the predicates describing every value `attack()` and `special_attack()` can return.
- `Telemetry` (data_collector.py): the event shapes of `track_skill_use`, `track_damage` and `track_health`.
- `Battle` (game/battle.py): the four actions, the counterattack, the outcome check, one turn, and the turn loop `Run`.
- `Upgrade` (game/upgrade.py): the upgrade menu.
- `Shop` (game/shop.py): prices, the purchase rule, and the shop loop.
- `Game` (game/game.py): the initial state, the win and loss branches, shop visits, New Game, and whole sessions (`Play`).

Behaviour of the code that one might not expect, and which the model reproduces:

- One might expect Defend to use up the enemy's action. In fact `process_combat` skips the counterattack only when the mouse is over the Heal button (game/battle.py:216-219). So after Defend the enemy attacks a second time (`Battle.DefendIsCounterattacked`). The model reads "mouse over Heal" as "the action was Heal".
- `track_upgrade` and `track_item_purchase` exist (data_collector.py:84-97, 130-143), but neither upgrade.py nor shop.py calls them. So the model emits no upgrade or purchase events.
- The upgrade menu closes on any key. Even an unrecognised key grants the 10-coin bonus (`Upgrade.UpgradeMenu`).

Representation choices:

- Speed is a whole number of tenths. It starts at 1 and each speed upgrade adds 1. `Dodge(h, roll)` holds iff `roll < speed / 10`.
- `Rolls` holds the draws one turn can use: one dodge roll, the `attack()` drawn by Defend or Heal, and the `attack()` of the counterattack.
- `IsAttackRoll(e, d)` says that `d` is a value `int(attack_power * v)` can take for some `v` in [0.8, 1.2].
- The step functions accept any draw. Lemmas that need real draws assume `HonestRolls`, or just non-negative damage.

## Model

| member | source | states |
|---|---|---|
| Player.NewHero | models/player.py:6-13 | A new hero has hp = max_hp = 100, magic and strength level 3, speed 0.1 (one tenth), no coins and no floor recorded yet |
| Player.AttackMagic | models/player.py:31-32 | Magic damage is a multiple of ten and at least 10 for any hero with magic level at least 1 |
| Player.AttackStrength | models/player.py:34-35 | Strength damage is a multiple of ten and at least 10 for any hero with strength level at least 1 |
| Player.MagicPower | models/player.py:37-38 | The displayed magic power always equals the damage of the magic attack |
| Player.AttackPower | models/player.py:40-41 | The displayed attack power always equals the damage of the strength attack |
| Player.PowersAgreeWithAttacks | models/player.py:31-35 | Each magic or strength level adds exactly 10 damage to the corresponding attack |
| Player.Defend | models/player.py:43-44 | Defended damage is never negative; it is zero exactly when the hit is at most twice the strength level; otherwise exactly 2×strength is absorbed; it never exceeds a non-negative hit |
| Player.Heal | models/player.py:46-49 | Healing changes only hp; new hp is the smaller of max_hp and old hp + 10×magic, so it never exceeds max_hp; the returned amount is the hp actually gained, non-negative from a valid state and zero at full health |
| Player.Dodge | models/player.py:51-52 | A dodge happens exactly when the drawn value is below speed (speed counted in tenths) |
| Player.DodgeExtremes | models/player.py:51-52 | Speed is uncapped: at 10 tenths or more every draw in [0, 1) dodges, and at zero none does |
| Enemies.NewEnemy | models/enemy.py:6-25 | The enemy keeps the level it was built with, and from level 1 on it has at least 80 hp and 15 attack |
| Enemies.EnemyScaling | models/enemy.py:10-25 | hp = 80 + 20(level−1), plus 50 on levels divisible by 5; attack = 15 + 8(level−1), plus 15 on those levels |
| Enemies.EnemyWorkedValues | models/enemy.py:10-25 | Level 1 gives 80/15, level 5 gives 210/62, level 6 gives 180/55, so level 6 is weaker than level 5 |
| Enemies.NextEnemyStrongerIff | models/enemy.py:10-25 | The next level's enemy has more hp, and more attack, if and only if the current level is not a multiple of 5 |
| Enemies.NewBoss | models/enemy.py:44-49 | A boss has exactly twice the regular enemy's hp and ⌊1.5 × its attack⌋ |
| Enemies.BossAtLevelOne | models/enemy.py:45-49 | The level-1 boss has 160 hp and 22 attack |
| Enemies.IsAttackRoll | models/enemy.py:37-41 | For a non-negative attack power, a possible `attack()` result is exactly an integer from ⌊0.8×power⌋ to ⌊1.2×power⌋ |
| Enemies.IsSpecialAttackRoll | models/enemy.py:64-68 | For a non-negative attack power, a possible `special_attack()` result is exactly an integer from ⌊1.5×power⌋ to ⌊2.5×power⌋ |
| Enemies.AttackRollBounds | models/enemy.py:37-41 | A possible `attack()` result is non-negative and lies between ⌊0.8×power⌋ and ⌊1.2×power⌋ |
| Enemies.SpecialAttackRollBounds | models/enemy.py:64-68 | A possible `special_attack()` result is non-negative and lies between ⌊1.5×power⌋ and ⌊2.5×power⌋ |
| Enemies.AttackRollsAtLevelOne | models/enemy.py:37-41 | The floor-1 enemy's attack is exactly one of 12 to 18 |
| Telemetry.TotalDamageAppend | data_collector.py:99-112 | Appending to the damage stream adds the totals and the row counts |
| Battle.StartEncounter | game/battle.py:248-253 | `battle()` records the floor on the hero as its current level and changes nothing else |
| Battle.UseMagicAttack | game/battle.py:81-89 | Magic Attack lowers only the enemy's hp, by exactly the magic damage, and logs a "Magic Attack" skill row then a "Magic" damage row, both with that damage |
| Battle.UseStrengthAttack | game/battle.py:91-99 | Strength Attack lowers only the enemy's hp, by exactly the strength damage, and logs a "Strength Attack" skill row then a "Strength" damage row |
| Battle.UseDefend | game/battle.py:101-109 | Defend lowers only the hero's hp, by exactly the defended amount of the enemy's hit (never raising it), leaves the enemy alone, and logs one "Defend" row with that amount |
| Battle.UseHeal | game/battle.py:111-126 | Heal logs one "Heal" row with the amount restored; the hero then takes one enemy hit unless they dodge; no damage row is logged for that hit; the enemy is untouched |
| Battle.ResolveAction | game/battle.py:197-209 | Exactly the clicked action is applied: Magic or Strength Attack lowers only the enemy's hp by that attack's damage, Defend lowers only the hero's hp by the defended hit, Heal leaves the enemy alone; the log starts with that action's skill row, tagged with the floor |
| Battle.Counterattack | game/battle.py:211-228 | The enemy hits back for one attack exactly when both sides stand, the action was not Heal and the hero does not dodge; otherwise nothing changes |
| Battle.CheckOutcome | game/battle.py:230-245 | Defeat iff hero hp ≤ 0, checked first, logging health (0, max_hp); else victory iff enemy hp ≤ 0, logging (hp, max_hp); else the battle continues with no row |
| Battle.Turn | game/battle.py:156-165 | A turn changes only the two hp values; the outcome is defeat iff the hero is down and victory iff only the enemy is; the log starts with the action's row, ends with a health row iff the battle ended, and carries the floor |
| Battle.AttackIsCounterattacked | game/battle.py:213-222 | After Magic or Strength Attack the enemy loses exactly that attack's damage, and the hero then loses the full counter draw iff the enemy still stands, the hero stands and does not dodge |
| Battle.DefendIsCounterattacked | game/battle.py:213-222 | After Defend, with no dodge and both sides standing, the hero takes the defended hit and then a full counterattack |
| Battle.HealIsNotCounterattacked | game/battle.py:111-126 | After Heal the hero takes only the heal's own hit (none on a dodge), and the turn logs no damage row |
| Battle.DefeatCheckedFirst | game/battle.py:230-243 | When both sides are down at the check, the result is defeat with a (0, max_hp) health row |
| Battle.NoDoubleKnockout | game/battle.py:211-245 | A turn that starts with both sides standing never leaves both down, so the tie-break never fires during play |
| Battle.TurnDamageMatchesEnemyLoss | game/battle.py:81-99 | The damage rows of a turn sum to exactly the hp the enemy lost in it |
| Battle.TurnKeepsBounds | game/battle.py:101-126 | With non-negative enemy hits, a turn keeps the hero valid (hp ≤ max_hp) and never raises the enemy's hp |
| Battle.HonestFramesAreNonNegative | models/enemy.py:37-41 | Any damage the enemy's attack can really produce is non-negative |
| Battle.Run | game/battle.py:135-166 | The loop keeps the floor; it returns a win only with the enemy down and the hero standing, a loss only with the hero down, and stops unfinished only with both still standing |
| Battle.RunChangesOnlyHp | game/battle.py:135-166 | A whole battle changes only the hero's and the enemy's hp; levels, attack, stats, coins and the floor are untouched |
| Battle.RunOneFrame | game/battle.py:156-166 | An idle frame changes nothing and logs nothing; a frame with an action is exactly one turn, whose victory or defeat becomes the loop's result |
| Battle.RunAppends | game/battle.py:135-166 | Frames are processed in order: running two frame lists in a row equals running their concatenation; once the battle is decided the later frames are ignored, otherwise they continue from the same encounter and the logs are joined |
| Battle.TurnOutcomeRow | game/battle.py:230-245 | A decided turn ends its log with (hp, max_hp) after a win and (0, max_hp) after a loss |
| Battle.RunLogsOnFloor | game/battle.py:135-166 | Every row a battle logs carries the encounter's floor |
| Battle.RunFinalRow | game/battle.py:156-166 | A won battle's log ends with (hp, max_hp), a lost one's with (0, max_hp) |
| Battle.RunOutcome | game/battle.py:135-166 | The loop returns a win only with the enemy down and the hero standing, ending the log with (hp, max_hp); a loss only with the hero down, ending with (0, max_hp); otherwise both stand; every row carries the floor |
| Battle.RunDamageMatchesEnemyLoss | game/battle.py:135-166 | Over a whole battle the damage rows add up to exactly the enemy's hp loss |
| Battle.RunKeepsBounds | game/battle.py:135-166 | With non-negative enemy hits, a battle keeps hp ≤ max_hp and never raises the enemy's hp |
| Battle.ThreeMagicAttacksWin | game/battle.py:135-166 | Default hero against the floor-1 enemy, three magic attacks, no dodges, hits of 15: won with 70 hp left and the enemy at −10, logging three skill/damage pairs and one health row |
| Upgrade.UpgradeMenu | game/upgrade.py:16-31 | Key 1 adds one strength, 2 one magic, 3 one tenth of speed, 4 fifty max hp and fifty hp; any other key changes no stat; every key adds exactly 10 coins; the gap between max hp and hp is preserved |
| Upgrade.AtMostOneUpgrade | game/upgrade.py:20-31 | A menu invocation changes exactly one stat for keys 1–4 and none for other keys, and lowers none |
| Shop.ApplyItem | game/shop.py:36-46 | A potion sets hp to the smaller of max hp and hp + 25; the attack upgrade adds only one strength level; the wand adds only one magic level |
| Shop.ItemsMatchTheirLabels | game/shop.py:25-46 | The attack upgrade adds 10 strength damage and the wand 10 magic damage, as their labels say; a potion heals between 0 and 25 |
| Shop.Cost | game/shop.py:25-32 | Prices are multiples of 5 between 5 and 10, and only the potion costs 5 |
| Shop.Purchase | game/shop.py:54-60 | A purchase happens iff coins ≥ cost; it deducts exactly the cost and applies the item; otherwise the hero is unchanged; coins stay non-negative |
| Shop.HandleClick | game/shop.py:48-61 | The shop closes exactly on a Back click, which buys nothing; an item click is a purchase attempt; any other click changes nothing |
| Shop.RunShop | game/shop.py:123-133 | The shop loop leaves through Back iff Back is clicked; coins never go negative nor up; every stat point bought cost 10 coins; an affordable item clicked first is paid for; max hp and speed are untouched; hp never drops and never exceeds max hp |
| Shop.RunShopOneClick | game/shop.py:123-133 | One click: Back leaves without buying; any other click is handled and the shop stays open |
| Shop.RunShopAppends | game/shop.py:123-133 | Clicks are handled in order: after Back the later clicks are ignored; otherwise the later clicks continue from the hero the earlier ones left |
| Shop.ShopVisitExample | game/shop.py:36-62 | With 15 coins and 90 hp, clicking wand upgrade, potion, potion, Back buys the wand and one potion, refuses the second potion, and leaves with magic level 4, full hp and no coins |
| Shop.Prices | game/shop.py:25-32 | Prices are potion 5, attack upgrade 10, wand upgrade 10 |
| Game.InitializeGame | game/game.py:24-46 | A new or reset game has a default hero tagged with floor 1, a fresh level-1 enemy with 80 hp, floor 1 and no enemies defeated |
| Game.Advance | game/game.py:125-146 | A win counts one more defeated enemy, moves up one floor, gives the hero 30 coins (20 plus the menu's 10) on top of the upgrade, and puts a fresh enemy of the new floor in place |
| Game.StartBattle | game/game.py:117-164 | The fight's log is the battle's log; the game stays on the floor screen iff the battle was won, shows game over iff it was lost, and ends iff the frames ran out; the floor and the defeated count each go up by one only after a win |
| Game.OpenShop | game/game.py:110-115 | A shop visit changes only the hero, and returns to the floor screen iff Back was clicked |
| Game.Step | game/game.py:228-240 | On the floor screen Fight runs a battle and Visit Shop opens the shop; New Game on the game-over screen restores the initial state; Quit ends the session; an ended session ignores everything; commands a screen does not offer change nothing; no other command lowers the defeated count |
| Game.Play | game/game.py:48-97 | An ended session stays ended and logs nothing; a one-command session is that command's step; without New Game the defeated count never goes down |
| Game.PlayAppends | game/game.py:48-97 | Playing two command lists in a row equals playing their concatenation; the log of the first part is kept unchanged as a prefix |
| Game.PlayCons | game/game.py:48-97 | A session is its first step followed by the session of the remaining commands, with the logs joined |
| Game.FightShopQuit | game/game.py:48-97 | A fight, a shop visit and Quit are those three steps in a row, with their logs joined |
| Game.FirstFloorWin | game/game.py:117-164 | Three no-dodge magic attacks win floor 1; with the magic upgrade the hero reaches floor 2 with 70 hp, magic level 4 and 30 coins, and seven floor-1 rows are logged |
| Game.WandUpgradeVisit | game/game.py:110-115 | With at least ten coins, a wand upgrade then Back costs ten coins, adds one magic level, logs nothing and returns to the floor screen |
| Game.SessionExample | game/game.py:48-164 | Win floor 1 with three magic attacks and take the magic upgrade, buy a wand upgrade, quit: the session ends on floor 2 with one enemy defeated, magic level 5, 20 coins, 70 hp and seven floor-1 rows |
| Game.AdvanceKeepsInvariant | game/game.py:125-146 | A win from a valid state with a standing hero yields a valid state |
| Game.StartBattleKeepsInvariant | game/game.py:117-164 | A fight keeps the game invariant whatever its outcome |
| Game.StepKeepsInvariant | game/game.py:70-87 | Any single decision keeps the game invariant, given non-negative damage draws |
| Game.PlayKeepsInvariant | game/game.py:117-146 | In every state a session reaches, the floor is the defeated count plus one, coins are non-negative, hp ≤ max hp, and the floor screen shows that floor's fresh enemy with the hero standing |
| Game.WinAdvances | game/game.py:121-146 | After a win the hero is the battle's hero (every stat carried over, hp as the battle left it, tagged with the floor) with the chosen menu upgrade applied and 30 more coins; the defeated count and floor go up by one and a fresh enemy of the next floor waits |
| Game.LossThenNewGameResets | game/game.py:235-237 | A lost fight reaches the game-over screen, and New Game from there restores the initial state |
| Game.FightLogsItsFloor | game/game.py:121-123 | Every telemetry row a fight emits carries the floor the fight took place on |

## Left out

- Rendering and input: drawing, button geometry, image loading, `pygame.event` polling, delays and animations. A click on a button is an `Action` or a shop `Click`. The upgrade menu's first key press is a `Key`.
- Several events handled within one polling frame. The battle and shop loops handle every event of a frame before resolving the turn, so two quick clicks could apply two actions in one turn. The model takes at most one click per frame. Likewise `upgrade_menu` sets `choosing = False` without leaving its `for` loop over the polled events (game/upgrade.py:16-31). So two key presses in one poll apply two upgrades and add 20 coins. The model takes only the first key of that poll, which is why `Upgrade.AtMostOneUpgrade` speaks of one key.
- Closing the window. This exits the process, so it is modelled as the session ending (`Closed`): input that runs out in a battle or in the shop, or Quit on the game-over screen.
- The game-over screen being shown twice after a loss, once from `process_combat` and once from `start_battle`. The model shows it once.
- The debug key, which only prints positions and stats.
- A click in the shop's first frame, before `render_shop` has built the item buttons. `handle_button_click` tests the Back button first (game/shop.py:51-52), so Back works there. Any other click reaches `self.buttons` (game/shop.py:54) before it exists and raises an AttributeError. The model does not represent that failure.
- Floating-point arithmetic. Speed is exact tenths, so float drift from repeated `+= 0.1` is not modelled. The ranges of `uniform(0.8, 1.2)` and `uniform(1.5, 2.5)` are taken as exact real intervals.
- The random number generator. Draws are inputs, and `HonestRolls` says which ones it can produce.
- Telemetry storage: CSV files, headers, session ids and timestamps. Events carry only the floor and the category fields. `track_upgrade` and `track_item_purchase` are never called by the modelled code, so those categories are absent.
- The offline analytics and charting (game_visualization.py).
- `Boss` is never built by the game flow. `Enemies.NewBoss` and the special-attack range are modelled on their own, and no step function uses them.
- Game.StartBattle: its own contract states the log, which screen follows, and how the floor counter moves. The hero after a win is stated by `Game.WinAdvances`. The hero after a loss is not stated beyond the invariant (`Game.StartBattleKeepsInvariant`), because the only way on from the game-over screen is New Game, which replaces it (`Game.LossThenNewGameResets`).

=== FILE: battle.dfy ===
/** One encounter between the hero and an enemy: the four hero actions, the
    enemy's counterattack, the outcome check, and the turn loop. Random draws
    are inputs, so every function states what happens for every draw. */
module Battle {
  import opened Common
  import opened Player
  import opened Enemies
  import opened Telemetry

  datatype Action = MagicAttack | StrengthAttack | Defend | Heal

  /** The random draws one turn may consume: one `dodge()` roll, the
      `attack()` drawn by the action itself (Defend, Heal), and the `attack()`
      of the counterattack. A turn ignores the draws it does not make. */
  datatype Rolls = Rolls(dodgeRoll: real, actionDamage: int, counterDamage: int)

  /** The hero, the enemy and the floor number used to tag telemetry. */
  datatype Encounter = Encounter(hero: Hero, enemy: Enemy, floor: int)

  datatype Outcome = Continue | Victory | Defeat

  datatype TurnResult = TurnResult(encounter: Encounter, outcome: Outcome, log: seq<Event>)

  /** The skill name a button logs. */
  function SkillName(a: Action): string
  {
    match a
    case MagicAttack => "Magic Attack"
    case StrengthAttack => "Strength Attack"
    case Defend => "Defend"
    case Heal => "Heal"
  }

  /** Draws that the random generator can actually produce for this enemy. */
  predicate HonestRolls(e: Enemy, rolls: Rolls)
  {
    && 0.0 <= rolls.dodgeRoll < 1.0
    && IsAttackRoll(e, rolls.actionDamage)
    && IsAttackRoll(e, rolls.counterDamage)
  }

  /** `battle()`: stores the floor on the hero and starts the encounter. */
  function StartEncounter(hero: Hero, enemy: Enemy, floor: int): (b: Encounter)
    ensures b.hero == hero.(currentLevel := b.hero.currentLevel)
    ensures b.hero.currentLevel == Some(floor) && b.floor == floor && b.enemy == enemy
  {
    Encounter(hero.(currentLevel := Some(floor)), enemy, floor)
  }

  /** The Magic Attack button. */
  function UseMagicAttack(b: Encounter): (r: (Encounter, seq<Event>))
    ensures r.0 == b.(enemy := b.enemy.(hp := r.0.enemy.hp))
    ensures b.enemy.hp - r.0.enemy.hp == AttackMagic(b.hero)
    ensures r.1 == [SkillUsed(b.floor, "Magic Attack", AttackMagic(b.hero)),
                    DamageDealt(b.floor, AttackMagic(b.hero), "Magic")]
  {
    var damage := AttackMagic(b.hero);
    (b.(enemy := b.enemy.(hp := b.enemy.hp - damage)),
     [SkillUsed(b.floor, "Magic Attack", damage), DamageDealt(b.floor, damage, "Magic")])
  }

  /** The Strength Attack button. */
  function UseStrengthAttack(b: Encounter): (r: (Encounter, seq<Event>))
    ensures r.0 == b.(enemy := b.enemy.(hp := r.0.enemy.hp))
    ensures b.enemy.hp - r.0.enemy.hp == AttackStrength(b.hero)
    ensures r.1 == [SkillUsed(b.floor, "Strength Attack", AttackStrength(b.hero)),
                    DamageDealt(b.floor, AttackStrength(b.hero), "Strength")]
  {
    var damage := AttackStrength(b.hero);
    (b.(enemy := b.enemy.(hp := b.enemy.hp - damage)),
     [SkillUsed(b.floor, "Strength Attack", damage), DamageDealt(b.floor, damage, "Strength")])
  }

  /** The Defend button: the enemy attacks for `damage`, the hero takes the
      defended amount, and the log records that amount. */
  function UseDefend(b: Encounter, damage: int): (r: (Encounter, seq<Event>))
    ensures r.0 == b.(hero := b.hero.(hp := r.0.hero.hp))
    ensures b.hero.hp - r.0.hero.hp == Player.Defend(b.hero, damage)
    ensures r.0.hero.hp <= b.hero.hp
    ensures r.1 == [SkillUsed(b.floor, "Defend", b.hero.hp - r.0.hero.hp)]
  {
    var reduced := Player.Defend(b.hero, damage);
    (b.(hero := b.hero.(hp := b.hero.hp - reduced)), [SkillUsed(b.floor, "Defend", reduced)])
  }

  /** The Heal button: heal, log the amount restored, then take one enemy
      attack unless the hero dodges. That hit is not logged. */
  function UseHeal(b: Encounter, dodgeRoll: real, damage: int): (r: (Encounter, seq<Event>))
    ensures r.0 == b.(hero := b.hero.(hp := r.0.hero.hp))
    ensures r.1 == [SkillUsed(b.floor, "Heal", Player.Heal(b.hero).1)]
    ensures Dodge(b.hero, dodgeRoll) ==> r.0.hero.hp == Player.Heal(b.hero).0.hp
    ensures !Dodge(b.hero, dodgeRoll) ==> r.0.hero.hp == Player.Heal(b.hero).0.hp - damage
  {
    var (healed, amount) := Player.Heal(b.hero);
    var log := [SkillUsed(b.floor, "Heal", amount)];
    if Dodge(healed, dodgeRoll) then
      (b.(hero := healed), log)
    else
      (b.(hero := healed.(hp := healed.hp - damage)), log)
  }

  /** The button handler for one action. */
  function ResolveAction(b: Encounter, a: Action, rolls: Rolls): (r: (Encounter, seq<Event>))
    ensures r.0.floor == b.floor
    ensures r.0.hero == b.hero.(hp := r.0.hero.hp)
    ensures r.0.enemy == b.enemy.(hp := r.0.enemy.hp)
    ensures |r.1| >= 1 && r.1[0].SkillUsed? && r.1[0].skill == SkillName(a)
    ensures OnFloor(r.1, b.floor)
    ensures a == MagicAttack ==> r.0 == b.(enemy := b.enemy.(hp := b.enemy.hp - AttackMagic(b.hero)))
    ensures a == StrengthAttack ==> r.0 == b.(enemy := b.enemy.(hp := b.enemy.hp - AttackStrength(b.hero)))
    ensures a == Defend ==> r.0 == b.(hero := b.hero.(hp := b.hero.hp - Player.Defend(b.hero, rolls.actionDamage)))
    ensures a == Heal ==> r.0.enemy == b.enemy
  {
    match a
    case MagicAttack => UseMagicAttack(b)
    case StrengthAttack => UseStrengthAttack(b)
    case Defend => UseDefend(b, rolls.actionDamage)
    case Heal => UseHeal(b, rolls.dodgeRoll, rolls.actionDamage)
  }

  /** Whether the enemy strikes back after the action: both sides still
      standing, the action was not Heal, and the hero does not dodge. Defend
      is not excluded. */
  predicate Counterattacks(b: Encounter, last: Action, dodgeRoll: real)
  {
    b.enemy.hp > 0 && b.hero.hp > 0 && last != Heal && !Dodge(b.hero, dodgeRoll)
  }

  /** First half of `process_combat`: the enemy's counterattack. */
  function Counterattack(b: Encounter, last: Action, rolls: Rolls): (r: Encounter)
    ensures r == b.(hero := b.hero.(hp := r.hero.hp))
    ensures last == Heal ==> r == b
    ensures Counterattacks(b, last, rolls.dodgeRoll) ==> r.hero.hp == b.hero.hp - rolls.counterDamage
    ensures !Counterattacks(b, last, rolls.dodgeRoll) ==> r == b
  {
    if b.enemy.hp > 0 && b.hero.hp > 0 && last != Heal then
      if !Dodge(b.hero, rolls.dodgeRoll) then
        b.(hero := b.hero.(hp := b.hero.hp - rolls.counterDamage))
      else
        b
    else
      b
  }

  /** Second half of `process_combat`: defeat is checked before victory and
      each terminal outcome records one health row. */
  function CheckOutcome(b: Encounter): (r: (Outcome, seq<Event>))
    ensures r.0 == Defeat <==> b.hero.hp <= 0
    ensures r.0 == Victory <==> b.hero.hp > 0 && b.enemy.hp <= 0
    ensures r.0 == Defeat ==> r.1 == [HealthRecorded(b.floor, 0, b.hero.maxHp)]
    ensures r.0 == Victory ==> r.1 == [HealthRecorded(b.floor, b.hero.hp, b.hero.maxHp)]
    ensures r.0 == Continue ==> r.1 == []
  {
    if b.hero.hp <= 0 then
      (Defeat, [HealthRecorded(b.floor, 0, b.hero.maxHp)])
    else if b.enemy.hp <= 0 then
      (Victory, [HealthRecorded(b.floor, b.hero.hp, b.hero.maxHp)])
    else
      (Continue, [])
  }

  /** One resolved turn: the action, the counterattack, the outcome check. */
  function Turn(b: Encounter, a: Action, rolls: Rolls): (t: TurnResult)
    ensures t.encounter.floor == b.floor
    ensures t.encounter.hero == b.hero.(hp := t.encounter.hero.hp)
    ensures t.encounter.enemy == b.enemy.(hp := t.encounter.enemy.hp)
    ensures t.outcome == Defeat <==> t.encounter.hero.hp <= 0
    ensures t.outcome == Victory <==> t.encounter.hero.hp > 0 && t.encounter.enemy.hp <= 0
    ensures |t.log| >= 1 && t.log[0].SkillUsed? && t.log[0].skill == SkillName(a)
    ensures OnFloor(t.log, b.floor)
    ensures t.outcome != Continue <==> t.log[|t.log| - 1].HealthRecorded?
  {
    var (acted, actionLog) := ResolveAction(b, a, rolls);
    var countered := Counterattack(acted, a, rolls);
    var (outcome, outcomeLog) := CheckOutcome(countered);
    TurnResult(countered, outcome, actionLog + outcomeLog)
  }

  /** After Defend the enemy still counterattacks: with both sides standing
      and no dodge, the hero takes the defended hit and then a full one. */
  lemma DefendIsCounterattacked(b: Encounter, rolls: Rolls)
    requires b.enemy.hp > 0 && !Dodge(b.hero, rolls.dodgeRoll)
    requires b.hero.hp > Player.Defend(b.hero, rolls.actionDamage)
    ensures Turn(b, Defend, rolls).encounter.hero.hp
            == b.hero.hp - Player.Defend(b.hero, rolls.actionDamage) - rolls.counterDamage
    ensures Turn(b, Defend, rolls).encounter.enemy == b.enemy
  {
  }

  /** After either attack the enemy loses exactly the attack's damage, and
      then strikes back with its full counter draw unless it has fallen or
      the hero dodges. */
  lemma AttackIsCounterattacked(b: Encounter, a: Action, rolls: Rolls)
    requires a == MagicAttack || a == StrengthAttack
    ensures var dealt := if a == MagicAttack then AttackMagic(b.hero) else AttackStrength(b.hero);
            var t := Turn(b, a, rolls);
            && t.encounter.enemy.hp == b.enemy.hp - dealt
            && t.encounter.hero.hp
               == b.hero.hp - (if b.enemy.hp - dealt > 0 && b.hero.hp > 0 && !Dodge(b.hero, rolls.dodgeRoll)
                               then rolls.counterDamage else 0)
  {
  }

  /** After Heal only the heal's own attack lands, and no damage row is
      logged for it. */
  lemma HealIsNotCounterattacked(b: Encounter, rolls: Rolls)
    ensures Turn(b, Heal, rolls).encounter.hero.hp
            == Player.Heal(b.hero).0.hp - (if Dodge(b.hero, rolls.dodgeRoll) then 0 else rolls.actionDamage)
    ensures DamageRows(Turn(b, Heal, rolls).log) == 0
    ensures Turn(b, Heal, rolls).encounter.enemy == b.enemy
  {
    var t := Turn(b, Heal, rolls);
    var (acted, actionLog) := UseHeal(b, rolls.dodgeRoll, rolls.actionDamage);
    var (outcome, outcomeLog) := CheckOutcome(acted);
    assert t.log == actionLog + outcomeLog;
    TotalDamageAppend(actionLog, outcomeLog);
  }

  /** When both sides are down at the check, the hero's defeat wins. */
  lemma DefeatCheckedFirst(b: Encounter)
    requires b.hero.hp <= 0 && b.enemy.hp <= 0
    ensures CheckOutcome(b) == (Defeat, [HealthRecorded(b.floor, 0, b.hero.maxHp)])
  {
  }

  /** Within the game that tie never arises: a turn that starts with both
      sides standing never leaves both down, because an attack that fells
      the enemy prevents the counterattack and no other action hurts it. */
  lemma NoDoubleKnockout(b: Encounter, a: Action, rolls: Rolls)
    requires b.hero.hp > 0 && b.enemy.hp > 0
    ensures var t := Turn(b, a, rolls);
            !(t.encounter.hero.hp <= 0 && t.encounter.enemy.hp <= 0)
  {
  }

  /** The total damage rows of a turn equal the hp the enemy lost in it. */
  lemma TurnDamageMatchesEnemyLoss(b: Encounter, a: Action, rolls: Rolls)
    ensures var t := Turn(b, a, rolls);
            TotalDamage(t.log) == b.enemy.hp - t.encounter.enemy.hp
  {
    var (acted, actionLog) := ResolveAction(b, a, rolls);
    var countered := Counterattack(acted, a, rolls);
    var (outcome, outcomeLog) := CheckOutcome(countered);
    TotalDamageAppend(actionLog, outcomeLog);
    assert TotalDamage(outcomeLog) == 0;
    match a
    case MagicAttack =>
      assert actionLog[1..][1..] == [];
    case StrengthAttack =>
      assert actionLog[1..][1..] == [];
    case Defend =>
    case Heal =>
  }

  /** With honest non-negative rolls a turn never raises the hero above
      `maxHp` nor the enemy's hp. */
  lemma TurnKeepsBounds(b: Encounter, a: Action, rolls: Rolls)
    requires Valid(b.hero)
    requires rolls.actionDamage >= 0 && rolls.counterDamage >= 0
    ensures Valid(Turn(b, a, rolls).encounter.hero)
    ensures Turn(b, a, rolls).encounter.enemy.hp <= b.enemy.hp
  {
  }

  /** One frame of the battle loop: either no button was hit, or one action
      together with the draws its turn consumes. */
  datatype Frame = Idle | Act(action: Action, rolls: Rolls)

  /** How the loop ended: `Unfinished` means the frames ran out while the
      battle was still going (the game only leaves that state by exiting). */
  datatype RunResult = Won | Lost | Unfinished

  /** What the loop returns: how it ended, the final encounter, and the rows
      it logged. */
  datatype BattleRun = BattleRun(result: RunResult, encounter: Encounter, log: seq<Event>)

  /** The turn loop of `run`: idle frames change nothing, each action is one
      turn, and the loop stops at the first victory or defeat. */
  function Run(b: Encounter, frames: seq<Frame>): (r: BattleRun)
    ensures r.encounter.floor == b.floor
    ensures r.result == Won ==> r.encounter.hero.hp > 0 && r.encounter.enemy.hp <= 0
    ensures r.result == Lost ==> r.encounter.hero.hp <= 0
    ensures r.result == Unfinished && b.hero.hp > 0 && b.enemy.hp > 0 ==> r.encounter.hero.hp > 0 && r.encounter.enemy.hp > 0
    decreases |frames|
  {
    if |frames| == 0 then BattleRun(Unfinished, b, [])
    else
      match frames[0]
      case Idle => Run(b, frames[1..])
      case Act(a, rolls) =>
        var t := Turn(b, a, rolls);
        match t.outcome
        case Victory => BattleRun(Won, t.encounter, t.log)
        case Defeat => BattleRun(Lost, t.encounter, t.log)
        case Continue =>
          var rest := Run(t.encounter, frames[1..]);
          BattleRun(rest.result, rest.encounter, t.log + rest.log)
  }

  /** A single frame: an idle one changes nothing and logs nothing, and an
      action is exactly one turn, whose outcome becomes the loop's result. */
  lemma RunOneFrame(b: Encounter, f: Frame)
    ensures f == Idle ==> Run(b, [f]) == BattleRun(Unfinished, b, [])
    ensures f.Act? ==>
              var t := Turn(b, f.action, f.rolls);
              var result := if t.outcome == Victory then Won else if t.outcome == Defeat then Lost else Unfinished;
              Run(b, [f]) == BattleRun(result, t.encounter, t.log)
  {
    assert [f][1..] == [];
  }

  /** Frames are processed in order: running two frame lists in a row is
      running their concatenation. Once the battle is decided the later
      frames are ignored; otherwise they continue from where the first list
      left off, and the logs are joined. */
  lemma {:induction false} RunAppends(b: Encounter, f1: seq<Frame>, f2: seq<Frame>)
    ensures var r1 := Run(b, f1);
            var r2 := Run(r1.encounter, f2);
            Run(b, f1 + f2)
              == if r1.result != Unfinished then r1 else BattleRun(r2.result, r2.encounter, r1.log + r2.log)
    decreases |f1|
  {
    if |f1| == 0 {
      assert f1 + f2 == f2;
      assert [] + Run(b, f2).log == Run(b, f2).log;
    } else {
      assert (f1 + f2)[0] == f1[0];
      assert (f1 + f2)[1..] == f1[1..] + f2;
      match f1[0]
      case Idle => RunAppends(b, f1[1..], f2);
      case Act(a, rolls) =>
        var t := Turn(b, a, rolls);
        if t.outcome == Continue {
          RunAppends(t.encounter, f1[1..], f2);
          var mid := Run(t.encounter, f1[1..]);
          var rest := Run(mid.encounter, f2);
          assert t.log + (mid.log + rest.log) == (t.log + mid.log) + rest.log;
        }
    }
  }

  /** Every draw of every frame is non-negative damage. */
  predicate NonNegativeDamage(frames: seq<Frame>)
  {
    forall i :: 0 <= i < |frames| && frames[i].Act? ==>
      frames[i].rolls.actionDamage >= 0 && frames[i].rolls.counterDamage >= 0
  }

  /** Every draw of every frame is one the random generator can produce. */
  predicate HonestFrames(e: Enemy, frames: seq<Frame>)
  {
    forall i :: 0 <= i < |frames| && frames[i].Act? ==> HonestRolls(e, frames[i].rolls)
  }

  lemma HonestFramesAreNonNegative(e: Enemy, frames: seq<Frame>)
    requires e.attackPower >= 0 && HonestFrames(e, frames)
    ensures NonNegativeDamage(frames)
  {
    forall i | 0 <= i < |frames| && frames[i].Act?
      ensures frames[i].rolls.actionDamage >= 0 && frames[i].rolls.counterDamage >= 0
    {
      AttackRollBounds(e, frames[i].rolls.actionDamage);
      AttackRollBounds(e, frames[i].rolls.counterDamage);
    }
  }

  /** A battle changes nothing but the two hp values; the floor, the enemy's
      level and attack, and every other hero stat stay as they were. */
  lemma {:induction false} RunChangesOnlyHp(b: Encounter, frames: seq<Frame>)
    ensures var r := Run(b, frames);
            && r.encounter.floor == b.floor
            && r.encounter.hero == b.hero.(hp := r.encounter.hero.hp)
            && r.encounter.enemy == b.enemy.(hp := r.encounter.enemy.hp)
    decreases |frames|
  {
    if |frames| > 0 {
      match frames[0]
      case Idle => RunChangesOnlyHp(b, frames[1..]);
      case Act(a, rolls) =>
        var t := Turn(b, a, rolls);
        if t.outcome == Continue {
          RunChangesOnlyHp(t.encounter, frames[1..]);
        }
    }
  }

  /** A decided turn ends its log with the health row of its outcome: the
      hero's remaining hp after a win, zero after a loss. */
  lemma TurnOutcomeRow(b: Encounter, a: Action, rolls: Rolls)
    ensures var t := Turn(b, a, rolls);
            && (t.outcome == Victory ==> t.log[|t.log| - 1] == HealthRecorded(b.floor, t.encounter.hero.hp, t.encounter.hero.maxHp))
            && (t.outcome == Defeat ==> t.log[|t.log| - 1] == HealthRecorded(b.floor, 0, t.encounter.hero.maxHp))
  {
    var (acted, actionLog) := ResolveAction(b, a, rolls);
    var countered := Counterattack(acted, a, rolls);
    var (outcome, outcomeLog) := CheckOutcome(countered);
    assert Turn(b, a, rolls).log == actionLog + outcomeLog;
  }

  /** Every row a battle logs is tagged with the encounter's floor. */
  lemma {:induction false} RunLogsOnFloor(b: Encounter, frames: seq<Frame>)
    ensures OnFloor(Run(b, frames).log, b.floor)
    decreases |frames|
  {
    if |frames| > 0 {
      match frames[0]
      case Idle => RunLogsOnFloor(b, frames[1..]);
      case Act(a, rolls) =>
        var t := Turn(b, a, rolls);
        if t.outcome == Continue {
          RunLogsOnFloor(t.encounter, frames[1..]);
          OnFloorAppend(t.log, Run(t.encounter, frames[1..]).log, b.floor);
        }
    }
  }

  /** A finished battle's log ends with the health row of its outcome: the
      hero's remaining hp after a win, zero after a loss. */
  lemma {:induction false} RunFinalRow(b: Encounter, frames: seq<Frame>)
    ensures var r := Run(b, frames);
            && (r.result == Won ==>
                  |r.log| > 0 && r.log[|r.log| - 1] == HealthRecorded(b.floor, r.encounter.hero.hp, r.encounter.hero.maxHp))
            && (r.result == Lost ==>
                  |r.log| > 0 && r.log[|r.log| - 1] == HealthRecorded(b.floor, 0, r.encounter.hero.maxHp))
    decreases |frames|
  {
    if |frames| > 0 {
      match frames[0]
      case Idle => RunFinalRow(b, frames[1..]);
      case Act(a, rolls) =>
        var t := Turn(b, a, rolls);
        TurnOutcomeRow(b, a, rolls);
        if t.outcome == Continue {
          RunFinalRow(t.encounter, frames[1..]);
          var rest := Run(t.encounter, frames[1..]);
          if rest.result != Unfinished {
            assert (t.log + rest.log)[|t.log + rest.log| - 1] == rest.log[|rest.log| - 1];
          }
        }
    }
  }

  /** How the loop ends: a win has the enemy down and the hero standing, a
      loss has the hero down, and an unfinished battle has both standing.
      Every row is tagged with the encounter's floor, and a finished battle's
      log ends with the health row its outcome records. */
  lemma RunOutcome(b: Encounter, frames: seq<Frame>)
    requires b.hero.hp > 0 && b.enemy.hp > 0
    ensures var r := Run(b, frames);
            && (r.result == Won ==>
                  && r.encounter.hero.hp > 0 && r.encounter.enemy.hp <= 0
                  && |r.log| > 0 && r.log[|r.log| - 1] == HealthRecorded(b.floor, r.encounter.hero.hp, r.encounter.hero.maxHp))
            && (r.result == Lost ==>
                  && r.encounter.hero.hp <= 0
                  && |r.log| > 0 && r.log[|r.log| - 1] == HealthRecorded(b.floor, 0, r.encounter.hero.maxHp))
            && (r.result == Unfinished ==> r.encounter.hero.hp > 0 && r.encounter.enemy.hp > 0)
            && OnFloor(r.log, b.floor)
  {
    RunLogsOnFloor(b, frames);
    RunFinalRow(b, frames);
  }

  /** Telemetry agrees with the state: the damage rows of a battle add up to
      exactly the hp the enemy lost. */
  lemma {:induction false} RunDamageMatchesEnemyLoss(b: Encounter, frames: seq<Frame>)
    ensures var r := Run(b, frames);
            TotalDamage(r.log) == b.enemy.hp - r.encounter.enemy.hp
    decreases |frames|
  {
    if |frames| > 0 {
      match frames[0]
      case Idle => RunDamageMatchesEnemyLoss(b, frames[1..]);
      case Act(a, rolls) =>
        var t := Turn(b, a, rolls);
        TurnDamageMatchesEnemyLoss(b, a, rolls);
        if t.outcome == Continue {
          var rest := Run(t.encounter, frames[1..]);
          RunDamageMatchesEnemyLoss(t.encounter, frames[1..]);
          TotalDamageAppend(t.log, rest.log);
        }
    }
  }

  /** With non-negative damage draws the hero stays valid and the enemy's hp
      never rises during a battle. */
  lemma {:induction false} RunKeepsBounds(b: Encounter, frames: seq<Frame>)
    requires Valid(b.hero) && NonNegativeDamage(frames)
    ensures Valid(Run(b, frames).encounter.hero)
    ensures Run(b, frames).encounter.enemy.hp <= b.enemy.hp
    decreases |frames|
  {
    if |frames| > 0 {
      assert NonNegativeDamage(frames[1..]) by {
        forall i | 0 <= i < |frames[1..]| && frames[1..][i].Act?
          ensures frames[1..][i].rolls.actionDamage >= 0 && frames[1..][i].rolls.counterDamage >= 0
        {
          assert frames[1..][i] == frames[i + 1];
        }
      }
      match frames[0]
      case Idle => RunKeepsBounds(b, frames[1..]);
      case Act(a, rolls) =>
        var t := Turn(b, a, rolls);
        TurnKeepsBounds(b, a, rolls);
        if t.outcome == Continue {
          RunKeepsBounds(t.encounter, frames[1..]);
        }
    }
  }

  /** The worked scenario: the starting hero against the floor-1 enemy, three
      magic attacks, no dodges and every enemy hit at exactly its power. Two
      counterattacks land; the third attack ends the battle. */
  lemma ThreeMagicAttacksWin()
    ensures var b := StartEncounter(NewHero(), NewEnemy(1), 1);
            var noDodge := Rolls(0.5, 15, 15);
            var act := Act(MagicAttack, noDodge);
            var r := Run(b, [act, act, act]);
            && r.result == Won
            && r.encounter.hero.hp == 70
            && r.encounter.enemy.hp == -10
            && r.log == [SkillUsed(1, "Magic Attack", 30), DamageDealt(1, 30, "Magic"),
                       SkillUsed(1, "Magic Attack", 30), DamageDealt(1, 30, "Magic"),
                       SkillUsed(1, "Magic Attack", 30), DamageDealt(1, 30, "Magic"),
                       HealthRecorded(1, 70, 100)]
  {
    var b := StartEncounter(NewHero(), NewEnemy(1), 1);
    var act := Act(MagicAttack, Rolls(0.5, 15, 15));
    var t1 := Turn(b, MagicAttack, Rolls(0.5, 15, 15));
    assert t1.encounter.hero.hp == 85 && t1.encounter.enemy.hp == 50;
    var t2 := Turn(t1.encounter, MagicAttack, Rolls(0.5, 15, 15));
    assert t2.encounter.hero.hp == 70 && t2.encounter.enemy.hp == 20;
    var t3 := Turn(t2.encounter, MagicAttack, Rolls(0.5, 15, 15));
    assert t3.outcome == Victory && t3.encounter.hero.hp == 70;
    assert [act, act, act][1..] == [act, act];
    assert [act, act][1..] == [act];
    var r3 := Run(t2.encounter, [act]);
    assert r3 == BattleRun(Won, t3.encounter, t3.log);
    var r2 := Run(t1.encounter, [act, act]);
    assert r2 == BattleRun(Won, t3.encounter, t2.log + t3.log);
    assert Run(b, [act, act, act]) == BattleRun(Won, t3.encounter, t1.log + (t2.log + t3.log));
  }
}

=== FILE: common.dfy ===
/** Small helpers shared by the combat and progression modules. */
module Common {

  /** A value that may be absent (an attribute the Python object has not set yet). */
  datatype Option<+T> = None | Some(value: T)

  function Min(a: int, b: int): int
  {
    if a <= b then a else b
  }

  function Max(a: int, b: int): int
  {
    if a >= b then a else b
  }

  /** Python's `int(x)` applied to the exact quotient `a / b`: it truncates
      toward zero, unlike Dafny's Euclidean `/`. */
  function TruncDiv(a: int, b: int): int
    requires b > 0
  {
    if a >= 0 then a / b else -((-a) / b)
  }
}

=== FILE: enemies.dfy ===
/** Regular enemies and bosses: stats derived from the floor level, and the
    damage rolls of their attacks. */
module Enemies {
  import opened Common

  /** The Python code's `Boss` subclass, as a tag on one record. */
  datatype Kind = Regular | Boss

  datatype Enemy = Enemy(kind: Kind, level: int, hp: int, attackPower: int)

  /** Bonus stats on every fifth level. */
  const BonusHp := 50
  const BonusAttack := 15

  /** `Enemy(level)`: base stats grow linearly with the level, and a level
      divisible by five gets a one-off bonus. */
  function NewEnemy(level: int): (e: Enemy)
    ensures e.kind == Regular && e.level == level
    ensures level >= 1 ==> e.hp >= 80 && e.attackPower >= 15
  {
    var base := Enemy(Regular, level, 80 + (level - 1) * 20, 15 + (level - 1) * 8);
    if level % 5 == 0 then
      base.(hp := base.hp + BonusHp, attackPower := base.attackPower + BonusAttack)
    else
      base
  }

  /** Closed form of the stats of a regular enemy. */
  lemma EnemyScaling(level: int)
    ensures NewEnemy(level).hp == 20 * level + 60 + (if level % 5 == 0 then 50 else 0)
    ensures NewEnemy(level).attackPower == 8 * level + 7 + (if level % 5 == 0 then 15 else 0)
  {
  }

  /** Worked values: floors 1, 5 and 6. Level 6 is weaker than level 5. */
  lemma EnemyWorkedValues()
    ensures NewEnemy(1).hp == 80 && NewEnemy(1).attackPower == 15
    ensures NewEnemy(5).hp == 210 && NewEnemy(5).attackPower == 62
    ensures NewEnemy(6).hp == 180 && NewEnemy(6).attackPower == 55
  {
  }

  /** Scaling is not monotone: the next floor's enemy is stronger, in hp and
      in attack, exactly when the current floor is not a bonus floor. */
  lemma NextEnemyStrongerIff(level: int)
    ensures NewEnemy(level + 1).hp > NewEnemy(level).hp <==> level % 5 != 0
    ensures NewEnemy(level + 1).attackPower > NewEnemy(level).attackPower <==> level % 5 != 0
  {
  }

  /** `Boss(level)`: twice the hp and one and a half times the attack of the
      regular enemy of that level, the latter truncated by `int()`. */
  function NewBoss(level: int): (e: Enemy)
    ensures e.kind == Boss && e.level == level
    ensures e.hp == 2 * NewEnemy(level).hp
    ensures level >= 1 ==> 2 * e.attackPower <= 3 * NewEnemy(level).attackPower < 2 * e.attackPower + 2
  {
    var base := NewEnemy(level);
    Enemy(Boss, level, base.hp * 2, TruncDiv(base.attackPower * 3, 2))
  }

  lemma BossAtLevelOne()
    ensures NewBoss(1).hp == 160 && NewBoss(1).attackPower == 22
  {
  }

  /** Every integer that `int(power * v)` can return for a real variance `v`
      drawn from [lo/10, hi/10]. */
  predicate InScaledRange(power: int, loTenths: int, hiTenths: int, d: int)
    requires 0 <= loTenths <= hiTenths
  {
    var a := TruncDiv(power * loTenths, 10);
    var b := TruncDiv(power * hiTenths, 10);
    Min(a, b) <= d <= Max(a, b)
  }

  /** `d` is a possible result of `attack()`: the attack power scaled by a
      variance in [0.8, 1.2], truncated. */
  predicate IsAttackRoll(e: Enemy, d: int)
    ensures e.attackPower >= 0 ==>
              (IsAttackRoll(e, d) <==> 8 * e.attackPower < 10 * d + 10 && 10 * d <= 12 * e.attackPower)
  {
    InScaledRange(e.attackPower, 8, 12, d)
  }

  /** `d` is a possible result of a boss's `special_attack()`: a variance in
      [1.5, 2.5]. Only a boss has this attack. */
  predicate IsSpecialAttackRoll(e: Enemy, d: int)
    requires e.kind == Boss
    ensures e.attackPower >= 0 ==>
              (IsSpecialAttackRoll(e, d) <==> 15 * e.attackPower < 10 * d + 10 && 10 * d <= 25 * e.attackPower)
  {
    InScaledRange(e.attackPower, 15, 25, d)
  }

  /** For a non-negative attack power, an attack roll is the power scaled by
      a factor in [0.8, 1.2], rounded down; in particular it is never negative. */
  lemma AttackRollBounds(e: Enemy, d: int)
    requires e.attackPower >= 0 && IsAttackRoll(e, d)
    ensures 0 <= d
    ensures 10 * d <= 12 * e.attackPower
    ensures 8 * e.attackPower < 10 * d + 10
  {
  }

  /** A special attack deals between 1.5 and 2.5 times the attack power,
      rounded down. */
  lemma SpecialAttackRollBounds(e: Enemy, d: int)
    requires e.kind == Boss && e.attackPower >= 0 && IsSpecialAttackRoll(e, d)
    ensures 0 <= d
    ensures 10 * d <= 25 * e.attackPower
    ensures 15 * e.attackPower < 10 * d + 10
  {
  }

  /** The floor-1 enemy hits for 12 to 18. */
  lemma AttackRollsAtLevelOne(d: int)
    ensures IsAttackRoll(NewEnemy(1), d) <==> 12 <= d <= 18
  {
  }
}

=== FILE: game.dfy ===
/** Progression between battles: the initial state, what a win and a loss
    do, the shop visit, and the New Game reset. */
module Game {
  import opened Common
  import opened Player
  import opened Enemies
  import opened Telemetry
  import opened Battle
  import opened Upgrade
  import opened Shop

  /** `Playing`: the floor screen. `GameOver`: the game-over screen.
      `Closed`: the session ended (Quit, or input stopped mid-battle or in
      the shop). */
  datatype Phase = Playing | GameOver | Closed

  datatype State = State(
    hero: Hero,
    enemy: Enemy,
    currentLevel: int,
    enemiesDefeated: int,
    phase: Phase)

  /** What holds in every reachable state: the floor counter is one more than
      the enemies defeated, the hero is valid, and on the floor screen the
      enemy waiting there is the fresh enemy of the current floor while the
      hero is still standing. */
  predicate Invariant(g: State)
  {
    && g.enemiesDefeated >= 0
    && g.currentLevel == g.enemiesDefeated + 1
    && Valid(g.hero)
    && (g.phase == Playing ==> g.enemy == NewEnemy(g.currentLevel) && g.hero.hp > 0)
  }

  /** `initialize_game`: a new hero on floor 1 facing a level-1 enemy. */
  function InitializeGame(): (g: State)
    ensures Invariant(g) && g.phase == Playing
    ensures g.currentLevel == 1 && g.enemiesDefeated == 0
    ensures g.hero == NewHero().(currentLevel := Some(1))
    ensures g.enemy.level == 1 && g.enemy.hp == 80
  {
    State(NewHero().(currentLevel := Some(1)), NewEnemy(1), 1, 0, Playing)
  }

  /** The victory branch of `start_battle`: the upgrade menu, twenty coins,
      the next floor and a fresh enemy for it. The hero carries over. */
  function Advance(g: State, hero: Hero, key: Key): (r: State)
    ensures r.phase == Playing
    ensures r.enemiesDefeated == g.enemiesDefeated + 1
    ensures r.currentLevel == g.currentLevel + 1
    ensures r.enemy == NewEnemy(r.currentLevel) && r.enemy.level == r.currentLevel
    ensures r.hero.coins == hero.coins + 30
    ensures r.hero == UpgradeMenu(hero, key).(coins := r.hero.coins)
  {
    var upgraded := UpgradeMenu(hero, key);
    var level := g.currentLevel + 1;
    State(upgraded.(coins := upgraded.coins + 20), NewEnemy(level), level, g.enemiesDefeated + 1, Playing)
  }

  /** `start_battle`: fight the enemy on the current floor. A win advances;
      a loss shows the game-over screen; a battle the frames do not finish
      ends the session where it stands. Returns the state and the log. */
  function StartBattle(g: State, frames: seq<Frame>, key: Key): (r: Progress)
    ensures var run := Run(StartEncounter(g.hero, g.enemy, g.currentLevel), frames);
            && r.log == run.log
            && (r.state.phase == Playing <==> run.result == Won)
            && (r.state.phase == GameOver <==> run.result == Lost)
            && (r.state.phase == Closed <==> run.result == Unfinished)
    ensures r.state.phase == Playing ==> r.state.currentLevel == g.currentLevel + 1
    ensures r.state.phase == Playing ==> r.state.enemiesDefeated == g.enemiesDefeated + 1
    ensures r.state.phase != Playing ==> r.state.currentLevel == g.currentLevel && r.state.enemiesDefeated == g.enemiesDefeated
  {
    var run := Run(StartEncounter(g.hero, g.enemy, g.currentLevel), frames);
    match run.result
    case Won => Progress(Advance(g, run.encounter.hero, key), run.log)
    case Lost => Progress(g.(hero := run.encounter.hero, enemy := run.encounter.enemy, phase := GameOver), run.log)
    case Unfinished => Progress(g.(hero := run.encounter.hero, enemy := run.encounter.enemy, phase := Closed), run.log)
  }

  /** `open_shop`: the hero shops until Back; clicks that stop before Back
      end the session. */
  function OpenShop(g: State, clicks: seq<Click>): (r: State)
    ensures r == g.(hero := r.hero, phase := r.phase)
    ensures r.phase == Playing <==> OnBack in clicks
    ensures Valid(g.hero) ==> Valid(r.hero)
    ensures g.hero.hp <= g.hero.maxHp ==> g.hero.hp <= r.hero.hp <= r.hero.maxHp
  {
    var (left, hero) := RunShop(g.hero, clicks);
    g.(hero := hero, phase := if left then Playing else Closed)
  }

  /** The game state after some player decisions, and the rows they logged. */
  datatype Progress = Progress(state: State, log: seq<Event>)

  /** One player decision. */
  datatype Command =
    | Fight(frames: seq<Frame>, key: Key)
    | VisitShop(clicks: seq<Click>)
    | NewGame
    | Quit

  /** The floor screen reacts to Fight and VisitShop, the game-over screen
      to NewGame, both to Quit; everything else is ignored. */
  function Step(g: State, cmd: Command): (r: Progress)
    ensures g.phase == Closed ==> r == Progress(g, [])
    ensures cmd == Quit && g.phase != Closed ==> r.state == g.(phase := Closed)
    ensures cmd == NewGame && g.phase == GameOver ==> r.state == InitializeGame()
    ensures cmd != NewGame ==> r.state.enemiesDefeated >= g.enemiesDefeated
    ensures g.phase == Playing && cmd.Fight? ==> r == StartBattle(g, cmd.frames, cmd.key)
    ensures g.phase == Playing && cmd.VisitShop? ==> r == Progress(OpenShop(g, cmd.clicks), [])
    ensures g.phase == Playing && cmd == NewGame ==> r == Progress(g, [])
    ensures g.phase == GameOver && !cmd.NewGame? && !cmd.Quit? ==> r == Progress(g, [])
  {
    match (g.phase, cmd)
    case (Playing, Fight(frames, key)) => StartBattle(g, frames, key)
    case (Playing, VisitShop(clicks)) => Progress(OpenShop(g, clicks), [])
    case (GameOver, NewGame) => Progress(InitializeGame(), [])
    case (Closed, _) => Progress(g, [])
    case (_, Quit) => Progress(g.(phase := Closed), [])
    case _ => Progress(g, [])
  }

  /** A whole session: the commands in order and the concatenated log. An
      ended session stays ended, and only New Game resets the defeated count. */
  function Play(g: State, cmds: seq<Command>): (r: Progress)
    ensures g.phase == Closed ==> r == Progress(g, [])
    ensures NewGame !in cmds ==> r.state.enemiesDefeated >= g.enemiesDefeated
    ensures |cmds| == 1 ==> r == Step(g, cmds[0])
    decreases |cmds|
  {
    if |cmds| == 0 then Progress(g, [])
    else
      var first := Step(g, cmds[0]);
      var rest := Play(first.state, cmds[1..]);
      assert g.phase == Closed ==> first.log + rest.log == [];
      Progress(rest.state, first.log + rest.log)
  }

  /** Sessions compose: playing two command lists in a row is playing their
      concatenation, and the log only grows, each earlier row kept in place. */
  lemma {:induction false} PlayAppends(g: State, cmds: seq<Command>, more: seq<Command>)
    ensures var first := Play(g, cmds);
            var rest := Play(first.state, more);
            Play(g, cmds + more) == Progress(rest.state, first.log + rest.log)
    decreases |cmds|
  {
    if |cmds| == 0 {
      assert cmds + more == more;
      assert [] + Play(g, more).log == Play(g, more).log;
    } else {
      assert (cmds + more)[0] == cmds[0];
      assert (cmds + more)[1..] == cmds[1..] + more;
      var step := Step(g, cmds[0]);
      PlayAppends(step.state, cmds[1..], more);
      var mid := Play(step.state, cmds[1..]);
      var rest := Play(mid.state, more);
      assert step.log + (mid.log + rest.log) == (step.log + mid.log) + rest.log;
    }
  }

  /** Damage draws of every battle of a session are non-negative. */
  predicate FightsHaveNonNegativeDamage(cmds: seq<Command>)
  {
    forall i :: 0 <= i < |cmds| && cmds[i].Fight? ==> NonNegativeDamage(cmds[i].frames)
  }

  /** Winning a battle keeps the invariant. */
  lemma AdvanceKeepsInvariant(g: State, hero: Hero, key: Key)
    requires Invariant(g) && Valid(hero) && hero.hp > 0
    ensures Invariant(Advance(g, hero, key))
  {
  }

  /** A fight keeps the invariant, whatever its outcome. */
  lemma StartBattleKeepsInvariant(g: State, frames: seq<Frame>, key: Key)
    requires Invariant(g) && g.phase == Playing && NonNegativeDamage(frames)
    ensures Invariant(StartBattle(g, frames, key).state)
  {
    var b := StartEncounter(g.hero, g.enemy, g.currentLevel);
    RunKeepsBounds(b, frames);
    RunOutcome(b, frames);
    RunChangesOnlyHp(b, frames);
    var run := Run(b, frames);
    if run.result == Won {
      AdvanceKeepsInvariant(g, run.encounter.hero, key);
    }
  }

  /** One decision keeps the invariant, provided a fight's damage draws are
      non-negative. */
  lemma StepKeepsInvariant(g: State, cmd: Command)
    requires Invariant(g)
    requires cmd.Fight? ==> NonNegativeDamage(cmd.frames)
    ensures Invariant(Step(g, cmd).state)
  {
    if g.phase == Playing && cmd.Fight? {
      StartBattleKeepsInvariant(g, cmd.frames, cmd.key);
    }
  }

  /** Every state a session reaches satisfies the invariant: the floor counter
      tracks the victories, coins never go negative, hp never exceeds the
      maximum, and the floor screen always shows the current floor's fresh
      enemy. */
  lemma {:induction false} PlayKeepsInvariant(g: State, cmds: seq<Command>)
    requires Invariant(g) && FightsHaveNonNegativeDamage(cmds)
    ensures Invariant(Play(g, cmds).state)
    decreases |cmds|
  {
    if |cmds| > 0 {
      assert cmds[0].Fight? ==> NonNegativeDamage(cmds[0].frames);
      StepKeepsInvariant(g, cmds[0]);
      assert FightsHaveNonNegativeDamage(cmds[1..]) by {
        forall i | 0 <= i < |cmds[1..]| && cmds[1..][i].Fight?
          ensures NonNegativeDamage(cmds[1..][i].frames)
        {
          assert cmds[1..][i] == cmds[i + 1];
        }
      }
      PlayKeepsInvariant(Step(g, cmds[0]).state, cmds[1..]);
    }
  }

  /** A won fight: one more enemy defeated, one floor up, thirty coins more
      (twenty for the win, ten from the menu), the battle-worn hero carried
      over with every stat and its remaining hp and the chosen upgrade
      applied, and a fresh enemy on the new floor. */
  lemma WinAdvances(g: State, frames: seq<Frame>, key: Key)
    requires g.phase == Playing
    requires Run(StartEncounter(g.hero, g.enemy, g.currentLevel), frames).result == Won
    ensures var run := Run(StartEncounter(g.hero, g.enemy, g.currentLevel), frames);
            var r := StartBattle(g, frames, key).state;
            && r.phase == Playing
            && r.enemiesDefeated == g.enemiesDefeated + 1
            && r.currentLevel == g.currentLevel + 1
            && r.enemy == NewEnemy(g.currentLevel + 1)
            && r.hero.coins == g.hero.coins + 30
            && r.hero.maxHp - r.hero.hp == run.encounter.hero.maxHp - run.encounter.hero.hp
            && r.hero.currentLevel == Some(g.currentLevel)
    ensures var run := Run(StartEncounter(g.hero, g.enemy, g.currentLevel), frames);
            StartBattle(g, frames, key).state.hero
              == UpgradeMenu(g.hero.(hp := run.encounter.hero.hp, currentLevel := Some(g.currentLevel)), key).(coins := g.hero.coins + 30)
  {
    RunChangesOnlyHp(StartEncounter(g.hero, g.enemy, g.currentLevel), frames);
  }

  /** A lost fight leads to the game-over screen, and New Game from there
      restores the initial state. */
  lemma LossThenNewGameResets(g: State, frames: seq<Frame>, key: Key)
    requires g.phase == Playing
    requires Run(StartEncounter(g.hero, g.enemy, g.currentLevel), frames).result == Lost
    ensures StartBattle(g, frames, key).state.phase == GameOver
    ensures Step(StartBattle(g, frames, key).state, NewGame).state == InitializeGame()
  {
  }

  /** The session log is the concatenation of the battle logs; with the
      invariant, every row a fight logs carries the floor it was fought on. */
  lemma FightLogsItsFloor(g: State, frames: seq<Frame>, key: Key)
    requires Invariant(g) && g.phase == Playing
    ensures OnFloor(Step(g, Fight(frames, key)).log, g.currentLevel)
  {
    RunOutcome(StartEncounter(g.hero, g.enemy, g.currentLevel), frames);
  }

  /** The first fight of the worked session: three magic attacks win floor 1,
      and the magic upgrade is taken. The hero moves to floor 2 with 70 hp,
      magic level 4 and thirty coins; the battle's seven rows are logged. */
  lemma FirstFloorWin()
    ensures var act := Act(MagicAttack, Rolls(0.5, 15, 15));
            var s := Step(InitializeGame(), Fight([act, act, act], Digit2));
            && s.state.phase == Playing
            && s.state.currentLevel == 2
            && s.state.enemiesDefeated == 1
            && s.state.hero == NewHero().(magicLevel := 4, hp := 70, coins := 30, currentLevel := Some(1))
            && |s.log| == 7
            && OnFloor(s.log, 1)
  {
    var act := Act(MagicAttack, Rolls(0.5, 15, 15));
    var g0 := InitializeGame();
    var b := StartEncounter(g0.hero, g0.enemy, g0.currentLevel);
    assert b == StartEncounter(NewHero(), NewEnemy(1), 1);
    ThreeMagicAttacksWin();
    RunChangesOnlyHp(b, [act, act, act]);
    FightLogsItsFloor(g0, [act, act, act], Digit2);
  }

  /** The shop half of the worked session: with ten coins or more, a wand
      upgrade then Back costs ten coins, adds one magic level, and returns
      to the floor screen. */
  lemma WandUpgradeVisit(g: State)
    requires g.phase == Playing && g.hero.coins >= 10
    ensures var s := Step(g, VisitShop([OnItem(WandUpgrade), OnBack]));
            && s.state == g.(hero := g.hero.(magicLevel := g.hero.magicLevel + 1, coins := g.hero.coins - 10))
            && s.log == []
  {
    assert [OnItem(WandUpgrade), OnBack][1..] == [OnBack];
  }

  /** A worked session: the starting hero wins the floor-1 battle with three
      magic attacks and takes the magic upgrade, buys a wand upgrade, then
      quits. The session ends on floor 2 with one enemy defeated, magic
      level 5, twenty coins left, and the seven battle rows logged. */
  lemma SessionExample()
    ensures var act := Act(MagicAttack, Rolls(0.5, 15, 15));
            var r := Play(InitializeGame(), [Fight([act, act, act], Digit2), VisitShop([OnItem(WandUpgrade), OnBack]), Quit]);
            && r.state.phase == Closed
            && r.state.currentLevel == 2
            && r.state.enemiesDefeated == 1
            && r.state.hero.magicLevel == 5
            && r.state.hero.coins == 20
            && r.state.hero.hp == 70
            && |r.log| == 7
            && OnFloor(r.log, 1)
  {
    var act := Act(MagicAttack, Rolls(0.5, 15, 15));
    var g0 := InitializeGame();
    var fight := Fight([act, act, act], Digit2);
    var shop := VisitShop([OnItem(WandUpgrade), OnBack]);
    FirstFloorWin();
    var s1 := Step(g0, fight);
    WandUpgradeVisit(s1.state);
    var s2 := Step(s1.state, shop);
    var s3 := Step(s2.state, Quit);
    FightShopQuit(g0, [act, act, act], Digit2, [OnItem(WandUpgrade), OnBack]);
  }

  /** A session of one fight, one shop visit and Quit is those three steps
      in a row, with the fight's log and the empty logs of the other two. */
  lemma FightShopQuit(g: State, frames: seq<Frame>, key: Key, clicks: seq<Click>)
    ensures var s1 := Step(g, Fight(frames, key));
            var s2 := Step(s1.state, VisitShop(clicks));
            var s3 := Step(s2.state, Quit);
            Play(g, [Fight(frames, key), VisitShop(clicks), Quit]) == Progress(s3.state, s1.log + s2.log + s3.log)
  {
    var a, b, c := Fight(frames, key), VisitShop(clicks), Quit;
    var s1 := Step(g, a);
    var s2 := Step(s1.state, b);
    var s3 := Step(s2.state, c);
    assert [a, b, c] == [a] + [b, c] && [b, c] == [b] + [c];
    PlayCons(g, a, [b, c]);
    PlayCons(s1.state, b, [c]);
    assert s1.log + (s2.log + s3.log) == s1.log + s2.log + s3.log;
  }

  /** A session is its first step followed by the session of the remaining
      commands, with the two logs joined. */
  lemma PlayCons(g: State, c: Command, cmds: seq<Command>)
    ensures var first := Step(g, c);
            var rest := Play(first.state, cmds);
            Play(g, [c] + cmds) == Progress(rest.state, first.log + rest.log)
  {
    assert ([c] + cmds)[0] == c && ([c] + cmds)[1..] == cmds;
  }
}

=== FILE: player.dfy ===
/** The hero: stats, the attack formulas, defending, healing and dodging. */
module Player {
  import opened Common

  /** The player character. `speedTenths` is the dodge chance counted in
      tenths (the Python code keeps a float that starts at 0.1 and grows in steps
      of 0.1). `currentLevel` is `None` until a new game or a battle sets it. */
  datatype Hero = Hero(
    hp: int,
    maxHp: int,
    magicLevel: int,
    strengthLevel: int,
    speedTenths: int,
    coins: int,
    currentLevel: Option<int>)

  /** What every operation of the game keeps true of the hero. The hp may be
      zero or negative: that is how a defeated hero is represented. */
  predicate Valid(h: Hero)
  {
    && h.hp <= h.maxHp
    && h.magicLevel >= 1
    && h.strengthLevel >= 1
    && h.speedTenths >= 0
    && h.coins >= 0
  }

  /** A freshly constructed hero. */
  function NewHero(): (h: Hero)
    ensures Valid(h)
    ensures h.hp == h.maxHp == 100
    ensures h.magicLevel == 3 && h.strengthLevel == 3 && h.speedTenths == 1
    ensures h.coins == 0 && h.currentLevel == None
  {
    Hero(100, 100, 3, 3, 1, 0, None)
  }

  /** Damage of the magic attack. */
  function AttackMagic(h: Hero): (damage: int)
    ensures damage % 10 == 0
    ensures h.magicLevel >= 1 ==> damage >= 10
  {
    h.magicLevel * 10
  }

  /** Damage of the strength attack. */
  function AttackStrength(h: Hero): (damage: int)
    ensures damage % 10 == 0
    ensures h.strengthLevel >= 1 ==> damage >= 10
  {
    h.strengthLevel * 10
  }

  /** The magic power the shop screen shows; the Python code computes it
      separately from the magic attack, and the two always agree. */
  function MagicPower(h: Hero): (power: int)
    ensures power == AttackMagic(h)
  {
    h.magicLevel * 10
  }

  /** The attack power the shop screen shows; it always agrees with the
      strength attack. */
  function AttackPower(h: Hero): (power: int)
    ensures power == AttackStrength(h)
  {
    h.strengthLevel * 10
  }

  /** One level more is exactly ten more damage, for either attack. */
  lemma PowersAgreeWithAttacks(h: Hero)
    ensures AttackMagic(h.(magicLevel := h.magicLevel + 1)) == AttackMagic(h) + 10
    ensures AttackStrength(h.(strengthLevel := h.strengthLevel + 1)) == AttackStrength(h) + 10
  {
  }

  /** Incoming damage after defending: two points are absorbed per strength
      level, and the result never drops below zero. */
  function Defend(h: Hero, incoming: int): (reduced: int)
    ensures reduced >= 0
    ensures reduced == 0 <==> incoming <= 2 * h.strengthLevel
    ensures reduced > 0 ==> incoming - reduced == 2 * h.strengthLevel
    ensures incoming >= 0 && h.strengthLevel >= 0 ==> reduced <= incoming
  {
    Max(0, incoming - h.strengthLevel * 2)
  }

  /** Healing restores ten hp per magic level, capped at `maxHp`; the second
      component is the amount actually restored. */
  function Heal(h: Hero): (r: (Hero, int))
    ensures r.0 == h.(hp := r.0.hp)
    ensures r.0.hp <= h.maxHp
    ensures r.0.hp <= h.hp + h.magicLevel * 10
    ensures r.0.hp == h.maxHp || r.0.hp == h.hp + h.magicLevel * 10
    ensures r.1 == r.0.hp - h.hp
    ensures h.hp <= h.maxHp && h.magicLevel >= 0 ==> r.1 >= 0
    ensures h.hp == h.maxHp && h.magicLevel >= 0 ==> r.1 == 0
  {
    var healed := h.(hp := Min(h.maxHp, h.hp + h.magicLevel * 10));
    (healed, healed.hp - h.hp)
  }

  /** Whether the hero dodges, given the value `roll` drawn by `random()`. */
  function Dodge(h: Hero, roll: real): (dodged: bool)
    ensures dodged <==> 10.0 * roll < h.speedTenths as real
  {
    roll < h.speedTenths as real / 10.0
  }

  /** Speed is never capped: once it reaches ten tenths every draw in [0, 1)
      is a dodge, and at zero no draw is. */
  lemma DodgeExtremes(h: Hero, roll: real)
    requires 0.0 <= roll < 1.0
    ensures h.speedTenths >= 10 ==> Dodge(h, roll)
    ensures h.speedTenths <= 0 ==> !Dodge(h, roll)
  {
  }
}

=== FILE: shop.dfy ===
/** The shop: a fixed price table and the rule that a purchase happens only
    when the hero can pay for it. */
module Shop {
  import opened Common
  import opened Player

  datatype Item = Potion | AttackUpgrade | WandUpgrade

  /** The price table: 5 coins for the potion, 10 for either upgrade. */
  function Cost(item: Item): (cost: nat)
    ensures cost % 5 == 0 && 5 <= cost <= 10
    ensures cost == 5 <==> item == Potion
  {
    match item
    case Potion => 5
    case AttackUpgrade => 10
    case WandUpgrade => 10
  }

  /** The effect of an item once paid for. */
  function ApplyItem(h: Hero, item: Item): (r: Hero)
    ensures r.coins == h.coins && r.maxHp == h.maxHp && r.speedTenths == h.speedTenths
    ensures r.currentLevel == h.currentLevel
    ensures item == Potion ==> r == h.(hp := r.hp) && r.hp == Min(h.maxHp, h.hp + 25)
    ensures item == AttackUpgrade ==> r == h.(strengthLevel := h.strengthLevel + 1)
    ensures item == WandUpgrade ==> r == h.(magicLevel := h.magicLevel + 1)
    ensures Valid(h) ==> Valid(r)
  {
    match item
    case Potion => h.(hp := Min(h.maxHp, h.hp + 25))
    case AttackUpgrade => h.(strengthLevel := h.strengthLevel + 1)
    case WandUpgrade => h.(magicLevel := h.magicLevel + 1)
  }

  /** The labels tell the truth: the attack upgrade adds ten strength damage
      and the wand ten magic damage, and the potion restores at most 25 hp. */
  lemma ItemsMatchTheirLabels(h: Hero)
    requires Valid(h)
    ensures AttackStrength(ApplyItem(h, AttackUpgrade)) == AttackStrength(h) + 10
    ensures AttackMagic(ApplyItem(h, WandUpgrade)) == AttackMagic(h) + 10
    ensures 0 <= ApplyItem(h, Potion).hp - h.hp <= 25
  {
  }

  /** Clicking an item: a purchase happens exactly when the coins cover the
      cost; it deducts the cost and applies the item, otherwise nothing
      changes. */
  function Purchase(h: Hero, item: Item): (r: Hero)
    ensures h.coins >= Cost(item) ==> r == ApplyItem(h, item).(coins := h.coins - Cost(item))
    ensures h.coins < Cost(item) ==> r == h
    ensures h.coins >= 0 ==> r.coins >= 0
    ensures r.coins == h.coins || r.coins == h.coins - Cost(item)
  {
    if h.coins >= Cost(item) then
      ApplyItem(h.(coins := h.coins - Cost(item)), item)
    else
      h
  }

  /** Where a click lands in the shop screen. */
  datatype Click = OnBack | OnItem(item: Item) | Elsewhere

  /** `handle_button_click`: returns whether the shop stays open, and the
      hero. Back closes the shop and buys nothing. */
  function HandleClick(h: Hero, c: Click): (r: (bool, Hero))
    ensures !r.0 <==> c == OnBack
    ensures c == OnBack || c == Elsewhere ==> r.1 == h
    ensures c.OnItem? ==> r.1 == Purchase(h, c.item)
  {
    match c
    case OnBack => (false, h)
    case OnItem(item) => (true, Purchase(h, item))
    case Elsewhere => (true, h)
  }

  /** Stat points gained (strength plus magic) between two heroes. */
  function StatGain(h: Hero, r: Hero): int
  {
    (r.strengthLevel - h.strengthLevel) + (r.magicLevel - h.magicLevel)
  }

  /** The shop loop: clicks are handled until one lands on Back. The first
      component says whether the shop was left through Back. Coins never go
      negative, nothing is bought on credit, and every stat point costs ten. */
  function RunShop(h: Hero, clicks: seq<Click>): (r: (bool, Hero))
    ensures r.1.maxHp == h.maxHp && r.1.speedTenths == h.speedTenths
    ensures r.1.currentLevel == h.currentLevel
    ensures h.coins >= 0 ==> 0 <= r.1.coins <= h.coins
    ensures r.1.strengthLevel >= h.strengthLevel && r.1.magicLevel >= h.magicLevel
    ensures 10 * StatGain(h, r.1) <= h.coins - r.1.coins
    ensures Valid(h) ==> Valid(r.1)
    ensures h.hp <= h.maxHp ==> h.hp <= r.1.hp <= h.maxHp
    ensures r.0 <==> OnBack in clicks
    ensures |clicks| > 0 && clicks[0].OnItem? && h.coins >= Cost(clicks[0].item) ==>
              r.1.coins <= h.coins - Cost(clicks[0].item)
    decreases |clicks|
  {
    if |clicks| == 0 then (false, h)
    else
      var (open, h1) := HandleClick(h, clicks[0]);
      if !open then (true, h1)
      else
        RunShop(h1, clicks[1..])
  }

  /** The price table. */
  lemma Prices()
    ensures Cost(Potion) == 5 && Cost(AttackUpgrade) == 10 && Cost(WandUpgrade) == 10
  {
  }

  /** A worked visit: with fifteen coins and 90 hp the hero buys a wand
      upgrade and a potion; the second potion is refused for lack of coins,
      and Back leaves the shop. */
  lemma ShopVisitExample()
    ensures var h := NewHero().(coins := 15, hp := 90);
            RunShop(h, [OnItem(WandUpgrade), OnItem(Potion), OnItem(Potion), OnBack])
              == (true, h.(magicLevel := 4, hp := 100, coins := 0))
  {
    var h := NewHero().(coins := 15, hp := 90);
    var clicks := [OnItem(WandUpgrade), OnItem(Potion), OnItem(Potion), OnBack];
    assert clicks[1..] == [OnItem(Potion), OnItem(Potion), OnBack];
    assert clicks[1..][1..] == [OnItem(Potion), OnBack];
    assert clicks[1..][1..][1..] == [OnBack];
  }

  /** A single click: Back leaves without buying; any other click is handled
      and the shop stays open. */
  lemma RunShopOneClick(h: Hero, c: Click)
    ensures RunShop(h, [c]) == (c == OnBack, HandleClick(h, c).1)
  {
    assert [c][1..] == [];
  }

  /** Clicks are handled in order: once Back has been clicked the later
      clicks are ignored; otherwise the later clicks continue from the hero
      the earlier ones left. */
  lemma {:induction false} RunShopAppends(h: Hero, a: seq<Click>, b: seq<Click>)
    ensures OnBack in a ==> RunShop(h, a + b) == RunShop(h, a)
    ensures OnBack !in a ==> RunShop(h, a + b) == RunShop(RunShop(h, a).1, b)
    decreases |a|
  {
    if |a| == 0 {
      assert a + b == b;
    } else {
      assert (a + b)[0] == a[0];
      assert (a + b)[1..] == a[1..] + b;
      if a[0] != OnBack {
        assert OnBack in a ==> OnBack in a[1..];
        RunShopAppends(HandleClick(h, a[0]).1, a[1..], b);
      }
    }
  }
}

=== FILE: telemetry.dfy ===
/** The telemetry the battle emits, as an append-only list of tagged events.
    Each constructor mirrors one `track_*` call of the data collector; the
    session id and the wall-clock timestamp of a row are left out. */
module Telemetry {

  datatype Event =
    | SkillUsed(floor: int, skill: string, effect: int)
    | DamageDealt(floor: int, amount: int, attackType: string)
    | HealthRecorded(floor: int, remaining: int, maxHealth: int)

  /** Every event of the log is tagged with the given floor. */
  predicate OnFloor(log: seq<Event>, floor: int)
  {
    forall i :: 0 <= i < |log| ==> log[i].floor == floor
  }

  /** The sum of the `damage_dealt` column over the damage rows of a log. */
  function TotalDamage(log: seq<Event>): int
  {
    if |log| == 0 then 0
    else (if log[0].DamageDealt? then log[0].amount else 0) + TotalDamage(log[1..])
  }

  /** Number of damage rows in a log. */
  function DamageRows(log: seq<Event>): nat
  {
    if |log| == 0 then 0
    else (if log[0].DamageDealt? then 1 else 0) + DamageRows(log[1..])
  }

  /** Appending logs adds their damage totals: the damage stream read back by
      the analytics sums to the same value however the log was split. */
  lemma {:induction false} TotalDamageAppend(a: seq<Event>, b: seq<Event>)
    ensures TotalDamage(a + b) == TotalDamage(a) + TotalDamage(b)
    ensures DamageRows(a + b) == DamageRows(a) + DamageRows(b)
    decreases |a|
  {
    if |a| == 0 {
      assert a + b == b;
    } else {
      assert (a + b)[1..] == a[1..] + b;
      TotalDamageAppend(a[1..], b);
    }
  }

  /** Two logs of one floor joined are still a log of that floor. */
  lemma OnFloorAppend(a: seq<Event>, b: seq<Event>, floor: int)
    requires OnFloor(a, floor) && OnFloor(b, floor)
    ensures OnFloor(a + b, floor)
  {
  }
}

=== FILE: upgrade.dfy ===
/** The post-victory upgrade menu. */
module Upgrade {
  import opened Player

  /** The key that ends the menu: one of the four numbered choices, or any
      other key. */
  datatype Key = Digit1 | Digit2 | Digit3 | Digit4 | OtherKey

  /** `upgrade_menu`: the first key press applies at most one upgrade, and
      every key press, recognised or not, grants ten coins and closes the menu. */
  function UpgradeMenu(h: Hero, key: Key): (r: Hero)
    ensures r.coins == h.coins + 10
    ensures r.maxHp - r.hp == h.maxHp - h.hp
    ensures Valid(h) ==> Valid(r)
    ensures key == Digit1 ==> r == h.(strengthLevel := h.strengthLevel + 1, coins := r.coins)
    ensures key == Digit2 ==> r == h.(magicLevel := h.magicLevel + 1, coins := r.coins)
    ensures key == Digit3 ==> r == h.(speedTenths := h.speedTenths + 1, coins := r.coins)
    ensures key == Digit4 ==> r == h.(maxHp := h.maxHp + 50, hp := h.hp + 50, coins := r.coins)
    ensures key == OtherKey ==> r == h.(coins := r.coins)
  {
    var upgraded :=
      match key
      case Digit1 => h.(strengthLevel := h.strengthLevel + 1)
      case Digit2 => h.(magicLevel := h.magicLevel + 1)
      case Digit3 => h.(speedTenths := h.speedTenths + 1)
      case Digit4 => h.(maxHp := h.maxHp + 50, hp := h.hp + 50)
      case OtherKey => h;
    upgraded.(coins := upgraded.coins + 10)
  }

  /** Number of the four upgradable stats that differ between two heroes. */
  function ChangedStats(h: Hero, r: Hero): nat
  {
    (if r.strengthLevel != h.strengthLevel then 1 else 0)
    + (if r.magicLevel != h.magicLevel then 1 else 0)
    + (if r.speedTenths != h.speedTenths then 1 else 0)
    + (if r.maxHp != h.maxHp then 1 else 0)
  }

  /** One invocation applies at most one upgrade, exactly one for the four
      numbered keys, and no stat ever goes down. */
  lemma AtMostOneUpgrade(h: Hero, key: Key)
    ensures var r := UpgradeMenu(h, key);
            && ChangedStats(h, r) == (if key == OtherKey then 0 else 1)
            && r.strengthLevel >= h.strengthLevel && r.magicLevel >= h.magicLevel
            && r.speedTenths >= h.speedTenths && r.maxHp >= h.maxHp && r.hp >= h.hp
  {
  }
}
